=== FILE: README.md ===
# Symmetric logo renderer — Dafny model

The script draws a point-symmetric logo out of rectangles and right triangles
and writes it as an SVG file. This project models its small geometric layer:

- **the mirroring helper** `mirror_transform`. It builds the SVG `transform`
  text. With mirroring on, it puts the point reflection
  `translate(2mx,2my) scale(-1,-1)` in front of the base transform and strips
  the result.
- **the two shape builders**. `draw_right_triangle` computes three vertices
  from an anchor and a size. `draw_rotated_rect` computes the rectangle's centre
  and an optional rotation about it. Both decide whether the element gets a
  `transform` attribute at all.
- **canvas accumulation**. `add_shape` appends one shape, and list order is
  paint order. `draw_symmetric` draws a shape and then its mirrored twin.

Layout:

- `wrappers.dfy`: `Option`.
- `text.dfy` (module `Text`):
  - Python's whitespace set;
  - `str.rstrip`, `str.lstrip` and `str.strip`;
  - `str(int)`, with its parse-back round trip.
- `transforms.dfy` (module `Transforms`):
  - transform lists (`Translate`, `Scale`, `Rotate`);
  - their rendering: operations joined by single spaces;
  - their action on points, read as in section 7.6 of SVG 1.1: the leftmost
    operation is the outermost;
  - the point reflection;
  - `MirrorTransform`, which computes exactly what `mirror_transform` in `main.py` computes on strings.
- `shapes.dfy` (module `Shapes`):
  - `Shape` (`Rect` and `Triangle`) and `Canvas`;
  - the shape builders and the drawing functions;
  - lemmas proving that the structured transform of every built shape renders
    to the text the f-strings of `mirror_transform` and `draw_rotated_rect`
    produce, given the caller's number texts.
- `logo.dfy` (module `Logo`): the constants and the fixed drawing list, with
  concrete facts about them.

Modelling decisions:

- Coordinates are `real`, because `w / 2` is true division.
- The mirror centre is a pair of integers, as the constant `(299, 229)` is.
  `2 * mx` is rendered by a concrete decimal renderer equal to Python's `str`
  of an int.
- The rotate arguments are rendered by a caller-supplied `NumberFormat`. It
  has two parts: `angle` writes the angle as the caller passed it (`45` for an
  int, `45.0` for a float), and `coord` writes the centre coordinates, which
  `/` always makes floats (`299.0`). Python's float text itself is not
  modelled. `Shapes.IntAngleBesideFloatCentre` shows that an int angle and an
  equal float coordinate are written differently, as in `rotate(45,45.0,45.0)`.
- Rotation needs cosine and sine, which Dafny's reals lack. The caller supplies
  them as a `Trig` function.
- The draw functions take a drawing parameter but append to the module-level
  drawing (main.py:19). The only caller passes that same drawing, so the model
  threads one explicit `Canvas` value through every call.
- Python renders the float centre `4 + 590 / 2` as `299.0`, so the central
  bar's attribute is `rotate(45,299.0,229.0)`. `Logo.CentralBarPivot` states
  it in terms of the number format.
- The triangle docstring says "isosceles". The code accepts any width and
  height. The model follows the code, so the legs are equal exactly when
  `w == h`.

## Model

| member | source | states |
|---|---|---|
| Text.RStrip | main.py:27 | the result is the prefix of the input obtained by dropping a maximal run of trailing Python whitespace: what follows it is all whitespace and it does not end in whitespace |
| Text.LStrip | main.py:27 | the result is a suffix of the input; what was dropped in front is all whitespace and the result does not start with whitespace |
| Text.Strip | main.py:27 | `str.strip()`: the result is a contiguous slice of the input with only whitespace outside it, and neither its first nor its last character is whitespace |
| Text.AsciiWhitespace | main.py:27 | within ASCII the characters `strip()` removes are exactly TAB, LF, VT, FF, CR, the separators FS, GS, RS and US, and space; no digit or letter is ever whitespace |
| Text.RStripAppend | main.py:27 | right-stripping `a + b` reaches into `a` only when `b` is all whitespace; otherwise it keeps `a` whole and strips `b` |
| Text.NatText | main.py:27 | `str` of a natural number is a non-empty string of decimal digits that starts with `0` only when it is `0` itself, for the number 0 |
| Text.IntText | main.py:27 | `str` of an integer is non-empty, starts with `-` exactly for negative numbers and is otherwise all decimal digits; it starts with `0` only when it is `0`, and no zero follows the minus sign |
| Text.IntTextRoundTrip | main.py:27 | parsing the rendered mirror offset gives back the integer it was rendered from |
| Text.IntTextWellFormed | main.py:27 | `str(int)` writes a well-formed integer text: digits with no leading zero unless the text is `0`, and a minus sign only in front of a non-zero number |
| Text.IntTextCanonical | main.py:27 | every well-formed integer text is `str` of the number it denotes, so together with the round trip `str(int)` is the unique canonical text of each integer |
| Transforms.RenderEnd | main.py:27 | a transform list renders to the empty text exactly when it has no operations; a non-empty rendering ends with `)` |
| Transforms.JoinAppend | main.py:27 | joining two non-empty lists of texts puts exactly one space between their joined texts |
| Transforms.RenderAppend | main.py:27 | two non-empty transform lists joined render as their texts joined by exactly one space |
| Transforms.ApplyAppend | main.py:27 | in a joined transform list the right part applies first and the left part is outermost, which puts the mirror prefix outside the rotation |
| Transforms.RotationFixesPivot | main.py:60 | `rotate(a,cx,cy)` leaves its pivot in place for every angle |
| Transforms.MirrorOpsReflect | main.py:27 | the prefix `translate(2mx,2my) scale(-1,-1)` sends every point p to 2c − p |
| Transforms.ReflectFixesCenter | main.py:10-11 | the point reflection fixes the mirror centre |
| Transforms.ReflectInvolution | main.py:27 | reflecting twice gives back the original point |
| Transforms.MirrorOpsText | main.py:27 | the rendered mirror prefix is `translate(<2mx>,<2my>) scale(-1,-1)`, whatever the number format |
| Transforms.MirrorPrefix | main.py:27 | the text put in front of the base transform starts with `t` and ends with `)`, so stripping never eats into it |
| Transforms.MirrorTransformStrips | main.py:27 | stripping `prefix + " " + base` keeps the prefix intact and drops only the base's trailing whitespace, together with the joining space when nothing is left |
| Transforms.MirrorTransform | main.py:22-27 | without mirroring, the base is returned unchanged, empty included; with mirroring and an empty or all-whitespace base, the result is exactly the mirror prefix with no trailing space; otherwise it is prefix, one space and the right-stripped base; a mirrored result is never empty and never starts or ends with whitespace |
| Shapes.Mirrored | main.py:24-27 | on transform lists, mirroring adds two operations (`Shapes.MirroredLayout` says which); without mirroring the length is unchanged |
| Shapes.MirroredLayout | main.py:24-27 | the mirrored list is the prefix `translate(2mx,2my)`, `scale(-1,-1)` followed by the base, and without mirroring it is the base itself |
| Shapes.MirroredApply | main.py:22-27 | on transform lists, the mirrored list maps every point to the reflection of the base's image; without mirroring the base acts alone |
| Shapes.MirroredMatchesText | main.py:22-27 | `mirror_transform`, applied to the rendered base, yields the rendering of the mirrored list, for every base list and number format |
| Shapes.RectCenter | main.py:58 | the pivot `(x + w/2, y + h/2)` is the midpoint of the rectangle's opposite corners |
| Shapes.RotationAbout | main.py:60 | the base transform is empty exactly when the angle is 0 |
| Shapes.RotationKeepsCenter | main.py:58-60 | the only operation of the base transform is a rotation by the given angle about the rectangle's centre, and it leaves that centre in place |
| Shapes.BaseText | main.py:60 | the rotation text is empty exactly when the angle is 0, as `if angle` decides |
| Shapes.BaseTextIsRendering | main.py:58-60 | the formatted rotation text is the rendering of the structured base transform |
| Shapes.IntAngleBesideFloatCentre | main.py:58-60 | the int angle 45 beside the float centre (45.0, 45.0) of a 90 × 90 square at the origin is written `rotate(45,45.0,45.0)` |
| Shapes.AttributeOfText | main.py:48 | `**({"transform": t} if t else {})`: the attribute is absent exactly when the text is empty, and otherwise carries the text unchanged |
| Shapes.Attach | main.py:69 | on transform lists, the attribute is absent exactly when the list is empty, and otherwise carries the list unchanged |
| Shapes.RightTriangle | main.py:33-48 | the builder yields a polygon of exactly three vertices |
| Shapes.RightTriangleShape | main.py:30-48 | three vertices in the order anchor, then w to the right, then h upwards; the legs meet at the anchor at a right angle; stroke width 2; a transform attribute exactly when mirrored, and the mirrored one reflects every point through the centre |
| Shapes.RotatedRect | main.py:63-65 | the rect's insert point and size are the arguments, passed through unchanged |
| Shapes.RotatedRectShape | main.py:53-69 | stroke width 2; a transform attribute exactly when the angle is non-zero or the shape is mirrored; a rotation about the centre is present exactly when the angle is non-zero; a mirrored transform starts with the mirror prefix; the centre is kept, or reflected when mirrored |
| Shapes.TriangleAttributeText | main.py:42-48 | the triangle's attribute is present exactly when `mirror_transform("", mirror)` is non-empty, and then equals that text |
| Shapes.RectAttributeText | main.py:60-69 | the rectangle's attribute is present exactly when `mirror_transform` of the formatted rotation text is non-empty, and then equals that text |
| Shapes.NewCanvas | main.py:10-14 | a new drawing is empty, and its geometric centre (half its width and height) is the mirror centre |
| Shapes.ReflectStaysOnCanvas | main.py:10-11 | a point is on the canvas exactly when its mirror image is |
| Shapes.AddShape | main.py:17-19 | exactly one shape is appended at the end; earlier shapes and the canvas size are unchanged |
| Shapes.DrawRightTriangle | main.py:30-50 | appends exactly the triangle built from the arguments and changes nothing else |
| Shapes.DrawRotatedRect | main.py:53-71 | appends exactly the rectangle built from the arguments and changes nothing else |
| Shapes.DrawSymmetric | main.py:74-77 | appends exactly two shapes: first the unmirrored one, then the mirrored one from the same arguments; earlier shapes are unchanged |
| Shapes.SymmetricTwin | main.py:74-77 | the two shapes of a symmetric pair have the same geometry and style; the second always has a transform, and it maps every point to the reflection of where the first one's transform maps it |
| Logo.PairsAt | main.py:88-92 | in a run of symmetric draws, position 2i holds call i unmirrored and position 2i + 1 its mirrored twin |
| Logo.DrawAllSymmetric | main.py:88-92 | a run of `draw_symmetric` calls appends the pairs of all calls in call order, after the shapes already drawn, and keeps the canvas size |
| Logo.LogoCanvas | main.py:88-95 | the script's drawing is the five symmetric pairs followed by the central bar, on a 598 × 458 canvas |
| Logo.LogoLayout | main.py:88-95 | the logo has 11 shapes: the side bar pair comes first and the central bar last |
| Logo.LogoOffsets | main.py:10-11 | the doubled centre coordinates render as `598` and `458` |
| Logo.LogoMirrorPrefix | main.py:10-27 | with centre (299, 229) the mirror prefix reads `translate(598,458) scale(-1,-1)` |
| Logo.SideBarAttributes | main.py:88 | the unmirrored side bar has no transform attribute; its mirrored twin has exactly `translate(598,458) scale(-1,-1)` |
| Logo.CentralBarPivot | main.py:95 | the central bar rotates by 45 degrees about (299, 229), the mirror centre, and its attribute is `rotate(<45>,<299.0>,<229.0>)` with the angle text and the coordinate texts of the number format |

## Left out

- SVG serialisation and the `svgwrite` element constructors (`Drawing`, `polygon`, `rect`, `add`): this is a foreign library. Its elements are abstracted as the `Shape` datatype.
- `dwg.save()`: file output only.
- Python's text for the rotate arguments: a parameter (`NumberFormat`), one text function for the angle and one for the float coordinates. One format serves a whole drawing, so the angle texts of a drawing all follow one Python type; the logo's rotation angles are the ints -45 and 45 (main.py:90-92, main.py:95), so one angle format serves it.
- Cosine and sine for `rotate`: these are a parameter (`Trig`).
- The module-level drawing object: it is replaced by an explicitly passed `Canvas`.
- A mirror centre given as floats: the constant in `main.py` is integers, so the model renders the mirror offsets as integers only.
- Python keyword-argument errors, such as passing `mirror` to `draw_symmetric` twice: `DrawCall` leaves out the mirror flag by construction.
- Shapes.RightTriangle: its own contract states only that it yields a three-vertex polygon; the vertex positions, the style and the transform are stated by `Shapes.RightTriangleShape`, which keeps the proofs about whole drawings small.
- Float arithmetic: coordinates are exact reals, so IEEE rounding in `x + w / 2` and `y + h / 2` is not modelled. In `main.py` `x + w` and `y - h` stay Python ints for int arguments; the model computes them as reals of the same value.
- NaN angles, which are truthy in Python: the model treats an angle as absent exactly when it equals 0.
- `ColorD` is declared but never used by the drawing list; it is kept only as a constant.

=== FILE: logo.dfy ===
/** The logo the script draws: its constants and its fixed list of drawing calls. */
module Logo {
  import opened Wrappers
  import opened Text
  import opened Transforms
  import opened Shapes

  const ColorA: Color := "#a9a9d4"
  const ColorB: Color := "#ffffff"
  const ColorC: Color := "#C4B5FD"
  const ColorD: Color := "#1a1a2e"

  const MirrorCenter: Center := Center(299, 229)
  const BarWidth: real := 50.0

  const SideBar: DrawCall := RectCall(Point(0.0, 111.0), Size(BarWidth, 200.0), ColorB, Some(ColorB), 0.0, MirrorCenter)

  /** The five calls the script wraps in `draw_symmetric`, in order. */
  const SymmetricCalls: seq<DrawCall> := [
    SideBar,
    TriangleCall(Point(0.0, 316.0), Size(70.0, 70.0), ColorC, Some(ColorC), MirrorCenter),
    RectCall(Point(4.0, 67.0), Size(100.0, BarWidth), ColorB, Some(ColorB), -45.0, MirrorCenter),
    RectCall(Point(146.0, 344.0), Size(100.0, BarWidth), ColorB, Some(ColorB), -45.0, MirrorCenter),
    RectCall(Point(-11.0, 345.0), Size(200.0, BarWidth), ColorC, Some(ColorC), 45.0, MirrorCenter)
  ]

  const CentralBar: Shape := RotatedRect(Point(4.0, 204.0), Size(590.0, BarWidth), ColorA, Some(ColorA), 45.0, false, MirrorCenter)

  /** The shapes a run of `draw_symmetric` calls adds: each call's pair, in call order. */
  function Pairs(calls: seq<DrawCall>): (r: seq<Shape>)
    ensures |r| == 2 * |calls|
    decreases |calls|
  {
    if calls == [] then [] else [CallShape(calls[0], false), CallShape(calls[0], true)] + Pairs(calls[1..])
  }

  /** Position 2i holds call i unmirrored, position 2i + 1 its mirrored twin. */
  lemma {:induction false} PairsAt(calls: seq<DrawCall>, i: nat)
    requires i < |calls|
    ensures Pairs(calls)[2 * i] == CallShape(calls[i], false)
    ensures Pairs(calls)[2 * i + 1] == CallShape(calls[i], true)
    decreases i
  {
    if i > 0 {
      PairsAt(calls[1..], i - 1);
    }
  }

  /** A run of `draw_symmetric` calls appends the pairs of all calls, in order, and nothing else. */
  function DrawAllSymmetric(d: Canvas, calls: seq<DrawCall>): (r: Canvas)
    ensures r.shapes == d.shapes + Pairs(calls)
    ensures r.width == d.width && r.height == d.height
    decreases |calls|
  {
    if calls == [] then
      assert d.shapes + Pairs(calls) == d.shapes;
      d
    else
      var e := DrawSymmetric(d, calls[0]);
      var r := DrawAllSymmetric(e, calls[1..]);
      assert r.shapes == d.shapes + ([CallShape(calls[0], false), CallShape(calls[0], true)] + Pairs(calls[1..]));
      r
  }

  /** The canvas with the five symmetric pairs and the long central bar, in drawing order. */
  function LogoCanvas(): (d: Canvas)
    ensures d.shapes == Pairs(SymmetricCalls) + [CentralBar]
    ensures d.width == 598 && d.height == 458
  {
    var pairs := DrawAllSymmetric(NewCanvas(MirrorCenter), SymmetricCalls);
    assert [] + Pairs(SymmetricCalls) == Pairs(SymmetricCalls);
    DrawRotatedRect(pairs, Point(4.0, 204.0), Size(590.0, BarWidth), ColorA, Some(ColorA), 45.0, false, MirrorCenter)
  }

  /** The logo has eleven shapes: the side bar pair first, the central bar last, on top of everything. */
  lemma LogoLayout()
    ensures |LogoCanvas().shapes| == 11
    ensures LogoCanvas().shapes[0] == CallShape(SideBar, false)
    ensures LogoCanvas().shapes[1] == CallShape(SideBar, true)
    ensures LogoCanvas().shapes[10] == CentralBar
  {
    PairsAt(SymmetricCalls, 0);
  }

  /** The first bar of the logo has no transform attribute; its mirrored copy has exactly `translate(598,458) scale(-1,-1)`. */
  lemma SideBarAttributes(fmt: NumberFormat)
    ensures Attribute(CallShape(SideBar, false), fmt) == None
    ensures Attribute(CallShape(SideBar, true), fmt) == Some("translate(598,458) scale(-1,-1)")
  {
    var s := CallShape(SideBar, true);
    assert RotationAbout(Point(0.0, 111.0), Size(BarWidth, 200.0), 0.0) == [];
    assert MirrorOps(MirrorCenter) + [] == MirrorOps(MirrorCenter);
    assert s.transform == Some(MirrorOps(MirrorCenter));
    MirrorOpsText(MirrorCenter);
    assert Attribute(s, fmt) == Some(MirrorPrefix(MirrorCenter));
    LogoMirrorPrefix();
  }

  /** With the logo's centre (299, 229) the mirroring prefix is `translate(598,458) scale(-1,-1)`. */
  lemma LogoMirrorPrefix()
    ensures MirrorPrefix(MirrorCenter) == "translate(598,458) scale(-1,-1)"
  {
    LogoOffsets();
    assert MirrorPrefix(MirrorCenter) == "translate(" + "598" + "," + "458" + ")" + " " + "scale(-1,-1)";
    assert "translate(" + "598" == "translate(598";
    assert "translate(598" + "," == "translate(598,";
    assert "translate(598," + "458" == "translate(598,458";
    assert "translate(598,458" + ")" == "translate(598,458)";
    assert "translate(598,458)" + " " == "translate(598,458) ";
    assert "translate(598,458) " + "scale(-1,-1)" == "translate(598,458) scale(-1,-1)";
  }

  /** The doubled centre coordinates render as `598` and `458`. */
  lemma LogoOffsets()
    ensures IntText(2 * MirrorCenter.x) == "598" && IntText(2 * MirrorCenter.y) == "458"
  {
    assert NatText(598) == "598" by {
      assert NatText(59) == "59" by { assert NatText(5) == "5"; }
    }
    assert NatText(458) == "458" by {
      assert NatText(45) == "45" by { assert NatText(4) == "4"; }
    }
  }

  /** The long central bar turns by 45 degrees about (299, 229), the mirror centre. */
  lemma CentralBarPivot(fmt: NumberFormat)
    ensures CentralBar.transform == Some([Rotate(45.0, 299.0, 229.0)])
    ensures CenterPoint(MirrorCenter) == Point(299.0, 229.0)
    ensures Attribute(CentralBar, fmt) == Some("rotate(" + fmt.angle(45.0) + "," + fmt.coord(299.0) + "," + fmt.coord(229.0) + ")")
  {
    assert RectCenter(Point(4.0, 204.0), Size(590.0, BarWidth)) == Point(299.0, 229.0);
    RenderSingle(Rotate(45.0, 299.0, 229.0), fmt);
  }
}

=== FILE: shapes.dfy ===
/**
 * Shape construction (`draw_right_triangle`, `draw_rotated_rect`) and the
 * canvas they append to (`add_shape`, `draw_symmetric`).
 *
 * The library's polygon and rect elements are abstracted into `Shape`;
 * the drawing is an explicit value whose shape list is in paint order.
 */
module Shapes {
  import opened Wrappers
  import opened Text
  import opened Transforms

  type Color = string

  /** Every shape is stroked with this width. */
  const StrokeWidth: nat := 2

  datatype Size = Size(w: real, h: real)

  datatype Style = Style(fill: Color, stroke: Option<Color>, strokeWidth: nat)

  /** A shape; `transform` is `None` when the element has no transform attribute. */
  datatype Shape =
    | Rect(insert: Point, size: Size, style: Style, transform: Option<Transform>)
    | Triangle(points: seq<Point>, style: Style, transform: Option<Transform>)

  /** The drawing: its pixel size and the shapes added so far, in paint order. */
  datatype Canvas = Canvas(width: int, height: int, shapes: seq<Shape>)

  /** The value of the transform attribute, if the element has one. */
  function Attribute(s: Shape, fmt: NumberFormat): Option<string> {
    match s.transform
    case None => None
    case Some(t) => Some(Render(t, fmt))
  }

  /** Where a shape's transform sends a point; no attribute is the identity. */
  function Effective(t: Option<Transform>, p: Point, trig: Trig): Point {
    match t
    case None => p
    case Some(ops) => Apply(ops, p, trig)
  }

  /** `**({"transform": t} if t else {})` in `main.py`: the attribute is present only when its text is non-empty. */
  function AttributeOfText(text: string): (r: Option<string>)
    ensures r.None? <==> text == []
    ensures r.Some? ==> r.value == text
  {
    if text == "" then None else Some(text)
  }

  /** A transform list is attached only when it has operations. */
  function Attach(t: Transform): (r: Option<Transform>)
    ensures r.None? <==> t == []
    ensures r.Some? ==> r.value == t
  {
    if t == [] then None else Some(t)
  }

  /** `mirror_transform` on transform lists: the mirroring prefix goes outermost. */
  function Mirrored(base: Transform, mirror: bool, c: Center): (t: Transform)
    ensures |t| == if mirror then |base| + 2 else |base|
  {
    if mirror then MirrorOps(c) + base else base
  }

  /** The mirrored list is the mirroring prefix followed by the base, or the base alone. */
  lemma MirroredLayout(base: Transform, mirror: bool, c: Center)
    ensures mirror ==> |Mirrored(base, mirror, c)| >= 2
    ensures mirror ==> Mirrored(base, mirror, c)[..2] == MirrorOps(c) && Mirrored(base, mirror, c)[2..] == base
    ensures !mirror ==> Mirrored(base, mirror, c) == base
  {
  }

  /** The mirrored list sends every point to the reflection of where the base sends it. */
  lemma MirroredApply(base: Transform, mirror: bool, c: Center, p: Point, trig: Trig)
    ensures Apply(Mirrored(base, mirror, c), p, trig)
         == if mirror then Reflect(c, Apply(base, p, trig)) else Apply(base, p, trig)
  {
    if mirror {
      ApplyAppend(MirrorOps(c), base, p, trig);
      MirrorOpsReflect(c, Apply(base, p, trig), trig);
    }
  }

  /**
   * The string helper and the list model agree: the text `mirror_transform`
   * builds from the rendered base is the rendering of the mirrored list.
   */
  lemma MirroredMatchesText(base: Transform, mirror: bool, c: Center, fmt: NumberFormat)
    ensures MirrorTransform(Render(base, fmt), mirror, c) == Render(Mirrored(base, mirror, c), fmt)
  {
    if mirror {
      var b := Render(base, fmt);
      RenderEnd(base, fmt);
      if base != [] {
        assert !IsSpace(b[|b| - 1]);
        assert RStrip(b) == b;
        RenderAppend(MirrorOps(c), base, fmt);
      } else {
        assert RStrip(b) == [];
        assert MirrorOps(c) + base == MirrorOps(c);
      }
    }
  }

  /** The centre of a rectangle: the midpoint of its opposite corners. */
  function RectCenter(insert: Point, size: Size): (r: Point)
    ensures r.x - insert.x == insert.x + size.w - r.x
    ensures r.y - insert.y == insert.y + size.h - r.y
  {
    Point(insert.x + size.w / 2.0, insert.y + size.h / 2.0)
  }

  /** The base transform of `draw_rotated_rect`: a rotation about the centre when the angle is non-zero. */
  function RotationAbout(insert: Point, size: Size, angle: real): (t: Transform)
    ensures t == [] <==> angle == 0.0
  {
    var pivot := RectCenter(insert, size);
    if angle != 0.0 then [Rotate(angle, pivot.x, pivot.y)] else []
  }

  /** The base rotation turns about the rectangle's centre, which therefore stays where it is. */
  lemma RotationKeepsCenter(insert: Point, size: Size, angle: real, trig: Trig)
    ensures forall op :: op in RotationAbout(insert, size, angle) ==>
              (op.Rotate? && op.angle == angle && Point(op.cx, op.cy) == RectCenter(insert, size))
    ensures Apply(RotationAbout(insert, size, angle), RectCenter(insert, size), trig) == RectCenter(insert, size)
  {
    var t := RotationAbout(insert, size, angle);
    if t != [] {
      assert t[1..] == [];
    }
  }

  /** The rotation text `draw_rotated_rect` formats for its base transform, empty for a zero angle. */
  function BaseText(insert: Point, size: Size, angle: real, fmt: NumberFormat): (r: string)
    ensures r == [] <==> angle == 0.0
  {
    var pivot := RectCenter(insert, size);
    if angle != 0.0 then "rotate(" + fmt.angle(angle) + "," + fmt.coord(pivot.x) + "," + fmt.coord(pivot.y) + ")" else ""
  }

  /** The polygon `draw_right_triangle` builds. */
  function RightTriangle(insert: Point, size: Size, fill: Color, stroke: Option<Color>, mirror: bool, c: Center): (s: Shape)
    ensures s.Triangle? && |s.points| == 3
  {
    var x, y := insert.x, insert.y;
    var points := [Point(x, y), Point(x + size.w, y), Point(x, y - size.h)];
    Triangle(points, Style(fill, stroke, StrokeWidth), Attach(Mirrored([], mirror, c)))
  }

  /** What `draw_right_triangle` draws: a right angle at the anchor, the fixed stroke, and the mirroring. */
  lemma RightTriangleShape(insert: Point, size: Size, fill: Color, stroke: Option<Color>, mirror: bool, c: Center, p: Point, trig: Trig)
    ensures var s := RightTriangle(insert, size, fill, stroke, mirror, c);
      // the right angle sits at the anchor ...
      && s.points[0] == insert
      // ... one leg runs w to the right, the other h upwards (y grows downwards)
      && s.points[1].x - s.points[0].x == size.w && s.points[1].y == s.points[0].y
      && s.points[2].x == s.points[0].x && s.points[0].y - s.points[2].y == size.h
      && (s.points[1].x - s.points[0].x) * (s.points[2].x - s.points[0].x)
         + (s.points[1].y - s.points[0].y) * (s.points[2].y - s.points[0].y) == 0.0
      && s.style == Style(fill, stroke, StrokeWidth)
      && (s.transform.Some? <==> mirror)
      && Effective(s.transform, p, trig) == if mirror then Reflect(c, p) else p
  {
    MirroredApply([], mirror, c, p, trig);
  }

  /** The rect `draw_rotated_rect` builds. */
  function RotatedRect(insert: Point, size: Size, fill: Color, stroke: Option<Color>, angle: real, mirror: bool, c: Center): (s: Shape)
    ensures s.Rect? && s.insert == insert && s.size == size
  {
    var t := Mirrored(RotationAbout(insert, size, angle), mirror, c);
    Rect(insert, size, Style(fill, stroke, StrokeWidth), Attach(t))
  }

  /**
   * What `draw_rotated_rect` draws: the fixed stroke, a transform attribute
   * exactly when there is a rotation or mirroring, the mirror prefix outermost,
   * and the centre kept by the rotation and reflected by the mirroring.
   */
  lemma RotatedRectShape(insert: Point, size: Size, fill: Color, stroke: Option<Color>, angle: real, mirror: bool, c: Center, trig: Trig)
    ensures var s := RotatedRect(insert, size, fill, stroke, angle, mirror, c);
      var pivot := RectCenter(insert, size);
      && s.style == Style(fill, stroke, StrokeWidth)
      && (s.transform.Some? <==> angle != 0.0 || mirror)
      && (s.transform.Some? ==> (Rotate(angle, pivot.x, pivot.y) in s.transform.value <==> angle != 0.0))
      && (mirror ==> s.transform.Some? && s.transform.value[..2] == MirrorOps(c))
      && Effective(s.transform, pivot, trig) == if mirror then Reflect(c, pivot) else pivot
  {
    var base := RotationAbout(insert, size, angle);
    var t := Mirrored(base, mirror, c);
    var pivot := RectCenter(insert, size);
    RotationKeepsCenter(insert, size, angle, trig);
    MirroredApply(base, mirror, c, pivot, trig);
    if mirror {
      assert t[..2] == MirrorOps(c);
      assert forall op :: op in MirrorOps(c) ==> !op.Rotate?;
      assert forall op :: op in t ==> op in MirrorOps(c) || op in base;
      if angle != 0.0 {
        assert t[2] == base[0];
      }
    }
  }

  /** The triangle's transform attribute is the one `draw_right_triangle` formats with `mirror_transform("", ...)`. */
  lemma TriangleAttributeText(insert: Point, size: Size, fill: Color, stroke: Option<Color>, mirror: bool, c: Center, fmt: NumberFormat)
    ensures Attribute(RightTriangle(insert, size, fill, stroke, mirror, c), fmt)
         == AttributeOfText(MirrorTransform("", mirror, c))
  {
    MirroredMatchesText([], mirror, c, fmt);
  }

  /** The rect's transform attribute is the one `draw_rotated_rect` formats from its rotation text. */
  lemma RectAttributeText(insert: Point, size: Size, fill: Color, stroke: Option<Color>, angle: real, mirror: bool, c: Center, fmt: NumberFormat)
    ensures Attribute(RotatedRect(insert, size, fill, stroke, angle, mirror, c), fmt)
         == AttributeOfText(MirrorTransform(BaseText(insert, size, angle, fmt), mirror, c))
  {
    BaseTextIsRendering(insert, size, angle, fmt);
    MirroredMatchesText(RotationAbout(insert, size, angle), mirror, c, fmt);
  }

  /** The formatted rotation text is the rendering of the structured base transform. */
  lemma BaseTextIsRendering(insert: Point, size: Size, angle: real, fmt: NumberFormat)
    ensures BaseText(insert, size, angle, fmt) == Render(RotationAbout(insert, size, angle), fmt)
  {
    var base := RotationAbout(insert, size, angle);
    if angle != 0.0 {
      RenderSingle(base[0], fmt);
    } else {
      RenderEnd(base, fmt);
    }
  }

  /**
   * The angle and the centre are written by their own Python types: the int
   * angle 45 beside the float centre (45.0, 45.0) gives `rotate(45,45.0,45.0)`.
   */
  lemma IntAngleBesideFloatCentre()
    ensures var fmt := NumberFormat(a => if a == 45.0 then "45" else "", x => if x == 45.0 then "45.0" else "");
            BaseText(Point(0.0, 0.0), Size(90.0, 90.0), 45.0, fmt) == "rotate(45,45.0,45.0)"
  {
    var fmt := NumberFormat(a => if a == 45.0 then "45" else "", x => if x == 45.0 then "45.0" else "");
    assert RectCenter(Point(0.0, 0.0), Size(90.0, 90.0)) == Point(45.0, 45.0);
    assert fmt.angle(45.0) == "45" && fmt.coord(45.0) == "45.0";
  }

  /** A fresh drawing sized so that its geometric centre is the mirror centre. */
  function NewCanvas(c: Center): (d: Canvas)
    ensures d.shapes == []
    ensures d.width as real / 2.0 == CenterPoint(c).x && d.height as real / 2.0 == CenterPoint(c).y
  {
    Canvas(2 * c.x, 2 * c.y, [])
  }

  predicate OnCanvas(d: Canvas, p: Point) {
    0.0 <= p.x <= d.width as real && 0.0 <= p.y <= d.height as real
  }

  /** Mirroring maps the canvas onto itself. */
  lemma ReflectStaysOnCanvas(c: Center, p: Point)
    ensures OnCanvas(NewCanvas(c), p) <==> OnCanvas(NewCanvas(c), Reflect(c, p))
  {
  }

  /** `add_shape`: one shape goes on top of the ones already drawn. */
  function AddShape(d: Canvas, s: Shape): (r: Canvas)
    ensures |r.shapes| == |d.shapes| + 1
    ensures r.shapes[..|d.shapes|] == d.shapes && r.shapes[|d.shapes|] == s
    ensures r.width == d.width && r.height == d.height
  {
    d.(shapes := d.shapes + [s])
  }

  function DrawRightTriangle(d: Canvas, insert: Point, size: Size, fill: Color, stroke: Option<Color>, mirror: bool, c: Center): (r: Canvas)
    ensures |r.shapes| == |d.shapes| + 1 && r.shapes[..|d.shapes|] == d.shapes
    ensures r.shapes[|d.shapes|] == RightTriangle(insert, size, fill, stroke, mirror, c)
    ensures r.width == d.width && r.height == d.height
  {
    AddShape(d, RightTriangle(insert, size, fill, stroke, mirror, c))
  }

  function DrawRotatedRect(d: Canvas, insert: Point, size: Size, fill: Color, stroke: Option<Color>, angle: real, mirror: bool, c: Center): (r: Canvas)
    ensures |r.shapes| == |d.shapes| + 1 && r.shapes[..|d.shapes|] == d.shapes
    ensures r.shapes[|d.shapes|] == RotatedRect(insert, size, fill, stroke, angle, mirror, c)
    ensures r.width == d.width && r.height == d.height
  {
    AddShape(d, RotatedRect(insert, size, fill, stroke, angle, mirror, c))
  }

  /** A drawing function together with every argument but `mirror`. */
  datatype DrawCall =
    | TriangleCall(insert: Point, size: Size, fill: Color, stroke: Option<Color>, center: Center)
    | RectCall(insert: Point, size: Size, fill: Color, stroke: Option<Color>, angle: real, center: Center)

  function CallShape(call: DrawCall, mirror: bool): Shape {
    match call
    case TriangleCall(insert, size, fill, stroke, c) => RightTriangle(insert, size, fill, stroke, mirror, c)
    case RectCall(insert, size, fill, stroke, angle, c) => RotatedRect(insert, size, fill, stroke, angle, mirror, c)
  }

  function Draw(d: Canvas, call: DrawCall, mirror: bool): Canvas {
    match call
    case TriangleCall(insert, size, fill, stroke, c) => DrawRightTriangle(d, insert, size, fill, stroke, mirror, c)
    case RectCall(insert, size, fill, stroke, angle, c) => DrawRotatedRect(d, insert, size, fill, stroke, angle, mirror, c)
  }

  /** `draw_symmetric`: the shape as given, then its mirrored twin on top of it. */
  function DrawSymmetric(d: Canvas, call: DrawCall): (r: Canvas)
    ensures r.shapes == d.shapes + [CallShape(call, false), CallShape(call, true)]
    ensures r.width == d.width && r.height == d.height
  {
    var e := Draw(d, call, false);
    assert e.shapes == d.shapes + [CallShape(call, false)];
    var r := Draw(e, call, true);
    assert r.shapes == e.shapes + [CallShape(call, true)];
    r
  }

  /**
   * The two shapes `draw_symmetric` adds are the same element, and the second
   * one's transform is the first one's followed by the point reflection.
   */
  lemma SymmetricTwin(d: Canvas, call: DrawCall, p: Point, trig: Trig)
    ensures var r := DrawSymmetric(d, call);
            var first, second := r.shapes[|d.shapes|], r.shapes[|d.shapes| + 1];
            && second.transform.Some?
            && first.style == second.style
            && (first.Rect? <==> second.Rect?)
            && (first.Rect? ==> first.insert == second.insert && first.size == second.size)
            && (first.Triangle? ==> first.points == second.points)
            && Effective(second.transform, p, trig) == Reflect(call.center, Effective(first.transform, p, trig))
  {
    var r := DrawSymmetric(d, call);
    assert r.shapes[|d.shapes|] == CallShape(call, false);
    assert r.shapes[|d.shapes| + 1] == CallShape(call, true);
    match call
    case TriangleCall(insert, size, fill, stroke, c) =>
      MirroredApply([], true, c, p, trig);
    case RectCall(insert, size, fill, stroke, angle, c) =>
      var base := RotationAbout(insert, size, angle);
      MirroredApply(base, true, c, p, trig);
      assert Mirrored(base, true, c) != [];
  }
}

=== FILE: text.dfy ===
/**
 * The string operations the transform helper relies on: Python's
 * whitespace test, `str.strip`, and `str(int)` for the mirror offsets.
 */
module Text {

  /** The ASCII whitespace of Python: TAB, LF, VT, FF, CR, the separators FS, GS, RS and US, and space. */
  const AsciiSpaces: set<char> := {'\t', '\n', '\U{0B}', '\U{0C}', '\r', '\U{1C}', '\U{1D}', '\U{1E}', '\U{1F}', ' '}

  /** Python's `str.isspace` for one code point (the set `str.strip()` removes). */
  predicate IsSpace(c: char) {
    var n := c as int;
    || (0x09 <= n <= 0x0D)
    || (0x1C <= n <= 0x20)
    || n == 0x85 || n == 0xA0 || n == 0x1680
    || (0x2000 <= n <= 0x200A)
    || n == 0x2028 || n == 0x2029 || n == 0x202F || n == 0x205F || n == 0x3000
  }

  /** Within ASCII the whitespace is exactly `AsciiSpaces`; digits and letters are never whitespace. */
  lemma AsciiWhitespace(c: char)
    ensures (c as int) < 0x80 ==> (IsSpace(c) <==> c in AsciiSpaces)
    ensures IsSpace(c) ==> (c as int) <= 0x3000 && !('0' <= c <= '9') && !('a' <= c <= 'z') && !('A' <= c <= 'Z')
  {
  }

  predicate AllSpace(s: string) {
    forall k :: 0 <= k < |s| ==> IsSpace(s[k])
  }

  /** `s.rstrip()`: the longest prefix of `s` not ending in whitespace. */
  function RStrip(s: string): (r: string)
    ensures |r| <= |s| && r == s[..|r|]
    ensures AllSpace(s[|r|..])
    ensures r == [] || !IsSpace(r[|r| - 1])
    decreases |s|
  {
    if |s| > 0 && IsSpace(s[|s| - 1]) then RStrip(s[..|s| - 1]) else s
  }

  /** `s.lstrip()`: the longest suffix of `s` not starting with whitespace. */
  function LStrip(s: string): (r: string)
    ensures |r| <= |s| && r == s[|s| - |r|..]
    ensures AllSpace(s[..|s| - |r|])
    ensures r == [] || !IsSpace(r[0])
    decreases |s|
  {
    if |s| > 0 && IsSpace(s[0]) then LStrip(s[1..]) else s
  }

  /** `s.strip()`: `s` with its leading and trailing whitespace removed. */
  function Strip(s: string): (r: string)
    ensures exists i, j :: 0 <= i <= j <= |s| && r == s[i..j] && AllSpace(s[..i]) && AllSpace(s[j..])
    ensures r == [] || (!IsSpace(r[0]) && !IsSpace(r[|r| - 1]))
  {
    var t := RStrip(s);
    var u := LStrip(t);
    assert u == s[|t| - |u|..|t|];
    assert s[..|t| - |u|] == t[..|t| - |u|];
    u
  }

  /** Stripping the right end of a concatenation only reaches into `a` when `b` is all whitespace. */
  lemma {:induction false} RStripAppend(a: string, b: string)
    ensures RStrip(a + b) == if RStrip(b) == [] then RStrip(a) else a + RStrip(b)
    decreases |b|
  {
    if b == [] {
      assert a + b == a;
    } else if IsSpace(b[|b| - 1]) {
      assert (a + b)[..|a + b| - 1] == a + b[..|b| - 1];
      RStripAppend(a, b[..|b| - 1]);
    } else {
      assert (a + b)[|a + b| - 1] == b[|b| - 1];
    }
  }

  /** A string that starts with a non-space character is left alone by `lstrip`. */
  lemma LStripNonSpaceStart(s: string)
    requires |s| > 0 && !IsSpace(s[0])
    ensures LStrip(s) == s
  {
  }

  /** The character for a decimal digit. */
  function DigitChar(d: nat): (c: char)
    requires d < 10
    ensures '0' <= c <= '9' && (c as int) - ('0' as int) == d
  {
    "0123456789"[d]
  }

  /** Python's `str(n)` for a natural number: its decimal digits, no leading zero. */
  function NatText(n: nat): (r: string)
    ensures |r| > 0
    ensures forall k :: 0 <= k < |r| ==> '0' <= r[k] <= '9'
    ensures r[0] == '0' ==> |r| == 1 && n == 0
    decreases n
  {
    if n < 10 then [DigitChar(n)] else NatText(n / 10) + [DigitChar(n % 10)]
  }

  /** Python's `str(n)` for an integer: a minus sign before the digits of a negative number. */
  function IntText(n: int): (r: string)
    ensures |r| > 0
    ensures r[0] == '-' <==> n < 0
    ensures r[0] == '-' || '0' <= r[0] <= '9'
    ensures forall k :: 1 <= k < |r| ==> '0' <= r[k] <= '9'
    ensures r[0] == '0' ==> |r| == 1
    ensures r[0] == '-' ==> |r| > 1 && r[1] != '0'
  {
    if n < 0 then
      var d := NatText(-n);
      assert forall k :: 1 <= k < |d| + 1 ==> ("-" + d)[k] == d[k - 1];
      "-" + d
    else NatText(n)
  }

  /** The value of a string of decimal digits. */
  function DigitsValue(s: string): int
    decreases |s|
  {
    if s == [] then 0 else DigitsValue(s[..|s| - 1]) * 10 + ((s[|s| - 1] as int) - ('0' as int))
  }

  /** Reading a number back from its text, the inverse of `IntText`. */
  function ParseInt(s: string): int {
    if |s| > 0 && s[0] == '-' then 0 - DigitsValue(s[1..]) else DigitsValue(s)
  }

  lemma {:induction false} NatTextRoundTrip(n: nat)
    ensures DigitsValue(NatText(n)) == n
    decreases n
  {
    if n >= 10 {
      var t := NatText(n);
      assert t[..|t| - 1] == NatText(n / 10);
      NatTextRoundTrip(n / 10);
    }
  }

  lemma {:induction false} NegativeRoundTrip(m: nat)
    ensures ParseInt("-" + NatText(m)) == 0 - m
  {
    assert ("-" + NatText(m))[1..] == NatText(m);
    NatTextRoundTrip(m);
  }

  /** The rendered mirror offsets denote exactly the numbers they were rendered from. */
  lemma {:induction false} IntTextRoundTrip(n: int)
    ensures ParseInt(IntText(n)) == n
  {
    if n < 0 {
      var m: nat := -n;
      var t := IntText(n);
      assert t == "-" + NatText(m);
      NegativeRoundTrip(m);
      assert ParseInt(t) == 0 - m;
    } else {
      NatTextRoundTrip(n);
    }
  }

  /** A decimal numeral as Python writes one: digits only, no leading zero unless it is `0`. */
  predicate Numeral(s: string) {
    |s| > 0 && (forall k :: 0 <= k < |s| ==> '0' <= s[k] <= '9') && (s[0] == '0' ==> |s| == 1)
  }

  /** An integer as Python writes one: a numeral, after a minus sign only when it is not `0`. */
  predicate IntNumeral(s: string) {
    |s| > 0 && if s[0] == '-' then |s| > 1 && s[1] != '0' && Numeral(s[1..]) else Numeral(s)
  }

  lemma {:induction false} NumeralPositive(s: string)
    requires Numeral(s) && s[0] != '0'
    ensures DigitsValue(s) > 0
    decreases |s|
  {
    if |s| > 1 {
      var p := s[..|s| - 1];
      assert p[0] == s[0];
      NumeralPositive(p);
    }
  }

  /** `str(int)` writes every integer as a well-formed integer text. */
  lemma IntTextWellFormed(n: int)
    ensures IntNumeral(IntText(n))
  {
    var r := IntText(n);
    if r[0] == '-' {
      assert forall k :: 0 <= k < |r[1..]| ==> r[1..][k] == r[k + 1];
    }
  }

  /** Every numeral is the text of the number it denotes. */
  lemma {:induction false} NumeralIsNatText(s: string)
    requires Numeral(s)
    ensures DigitsValue(s) >= 0 && NatText(DigitsValue(s)) == s
    decreases |s|
  {
    var d := (s[|s| - 1] as int) - ('0' as int);
    if |s| == 1 {
      assert s[..0] == [];
      assert DigitsValue(s) == d;
      assert NatText(d) == [DigitChar(d)];
    } else {
      var p := s[..|s| - 1];
      assert p[0] == s[0] && s[0] != '0';
      NumeralPositive(p);
      NumeralIsNatText(p);
      var v := DigitsValue(p);
      var n := v * 10 + d;
      assert DigitsValue(s) == n;
      assert n / 10 == v && n % 10 == d;
      assert NatText(n) == NatText(v) + [DigitChar(d)];
      assert s == p + [s[|s| - 1]];
    }
  }

  /** `str(int)` is the only way to write a number: every well-formed integer text is the text of its value. */
  lemma {:induction false} IntTextCanonical(s: string)
    requires IntNumeral(s)
    ensures IntText(ParseInt(s)) == s
  {
    if s[0] == '-' {
      var t := s[1..];
      assert t[0] != '0';
      NumeralPositive(t);
      NumeralIsNatText(t);
      var m: nat := DigitsValue(t);
      assert ParseInt(s) == 0 - m;
      assert IntText(0 - m) == "-" + NatText(m);
      assert s == "-" + t;
    } else {
      NumeralIsNatText(s);
    }
  }
}

=== FILE: transforms.dfy ===
/**
 * SVG transform lists and the mirroring helper `mirror_transform`.
 *
 * A transform is a list of operations written left to right; as in
 * section 7.6 of SVG 1.1, the leftmost operation is the outermost one,
 * so a point is mapped by the last operation first.
 */
module Transforms {
  import opened Text

  datatype Point = Point(x: real, y: real)

  /** The symmetry point of the canvas; the logo's constant is a pair of integers. */
  datatype Center = Center(x: int, y: int)

  function CenterPoint(c: Center): Point {
    Point(c.x as real, c.y as real)
  }

  /**
   * Rendering of the numbers inside `rotate(...)`, supplied by the caller:
   * `angle` is Python's `str` of the angle as the caller passed it (`45` for
   * the int 45, `45.0` for the float), and `coord` is Python's `str` of a
   * float, which the centre coordinates always are (`299.0`).
   */
  datatype NumberFormat = NumberFormat(angle: real -> string, coord: real -> string)

  /** (cos a, sin a) for an angle a in degrees, supplied by the caller. */
  type Trig = real -> (real, real)

  datatype Op =
    | Translate(tx: int, ty: int)
    | Scale(sx: int, sy: int)
    | Rotate(angle: real, cx: real, cy: real)

  type Transform = seq<Op>

  function RenderOp(op: Op, fmt: NumberFormat): (r: string)
    ensures |r| > 0 && r[|r| - 1] == ')'
  {
    match op
    case Translate(tx, ty) => "translate(" + IntText(tx) + "," + IntText(ty) + ")"
    case Scale(sx, sy) => "scale(" + IntText(sx) + "," + IntText(sy) + ")"
    case Rotate(a, cx, cy) => "rotate(" + fmt.angle(a) + "," + fmt.coord(cx) + "," + fmt.coord(cy) + ")"
  }

  /** Texts joined by single spaces. */
  function Join(parts: seq<string>): string
    decreases |parts|
  {
    if |parts| == 0 then ""
    else if |parts| == 1 then parts[0]
    else parts[0] + " " + Join(parts[1..])
  }

  /** A joined text of non-empty parts is non-empty and ends with the last part's last character. */
  lemma {:induction false} JoinLast(parts: seq<string>)
    requires parts != [] && forall i :: 0 <= i < |parts| ==> parts[i] != []
    ensures var r, last := Join(parts), parts[|parts| - 1];
            r != [] && r[|r| - 1] == last[|last| - 1]
    decreases |parts|
  {
    if |parts| > 1 {
      var rest := parts[1..];
      JoinLast(rest);
      assert rest[|rest| - 1] == parts[|parts| - 1];
      assert Join(parts) == parts[0] + " " + Join(rest);
    }
  }

  /** Joining two non-empty lists of parts puts exactly one space between their joined texts. */
  lemma {:induction false} JoinAppend(p: seq<string>, q: seq<string>)
    requires p != [] && q != []
    ensures Join(p + q) == Join(p) + " " + Join(q)
    decreases |p|
  {
    var pq := p + q;
    if |p| == 1 {
      assert pq[1..] == q;
    } else {
      assert pq[1..] == p[1..] + q;
      JoinAppend(p[1..], q);
      var x, y := Join(p[1..]), Join(q);
      assert p[0] + " " + (x + " " + y) == (p[0] + " " + x) + " " + y;
    }
  }

  function OpTexts(t: Transform, fmt: NumberFormat): (r: seq<string>)
    ensures |r| == |t|
    ensures forall i :: 0 <= i < |t| ==> r[i] == RenderOp(t[i], fmt)
  {
    seq(|t|, i requires 0 <= i < |t| => RenderOp(t[i], fmt))
  }

  /** The text of a transform attribute: the operations joined by single spaces. */
  function Render(t: Transform, fmt: NumberFormat): string {
    Join(OpTexts(t, fmt))
  }

  /** A transform renders to the empty text exactly when it has no operations; otherwise the text ends with `)`. */
  lemma RenderEnd(t: Transform, fmt: NumberFormat)
    ensures Render(t, fmt) == [] <==> t == []
    ensures t != [] ==> Render(t, fmt)[|Render(t, fmt)| - 1] == ')'
  {
    var texts := OpTexts(t, fmt);
    if t == [] {
      assert texts == [];
    } else {
      var last := RenderOp(t[|t| - 1], fmt);
      assert texts[|t| - 1] == last;
      assert forall i :: 0 <= i < |texts| ==> texts[i] != [];
      JoinLast(texts);
      var r := Render(t, fmt);
      assert r == Join(texts);
      assert r != [];
      assert r[|r| - 1] == ')';
    }
  }

  /** A one-operation transform renders as that operation alone. */
  lemma RenderSingle(op: Op, fmt: NumberFormat)
    ensures Render([op], fmt) == RenderOp(op, fmt)
  {
    assert OpTexts([op], fmt) == [RenderOp(op, fmt)];
  }

  /** Joining two non-empty transform lists renders as their texts joined by one space. */
  lemma RenderAppend(a: Transform, b: Transform, fmt: NumberFormat)
    requires a != [] && b != []
    ensures Render(a + b, fmt) == Render(a, fmt) + " " + Render(b, fmt)
  {
    assert OpTexts(a + b, fmt) == OpTexts(a, fmt) + OpTexts(b, fmt);
    JoinAppend(OpTexts(a, fmt), OpTexts(b, fmt));
  }

  function ApplyOp(op: Op, p: Point, trig: Trig): Point {
    match op
    case Translate(tx, ty) => Point(p.x + tx as real, p.y + ty as real)
    case Scale(sx, sy) => Point(sx as real * p.x, sy as real * p.y)
    case Rotate(a, cx, cy) =>
      var (cos, sin) := trig(a);
      Point(cx + cos * (p.x - cx) - sin * (p.y - cy), cy + sin * (p.x - cx) + cos * (p.y - cy))
  }

  /** Where a transform list sends a point: the last operation applies first. */
  function Apply(t: Transform, p: Point, trig: Trig): Point
    decreases |t|
  {
    if |t| == 0 then p else ApplyOp(t[0], Apply(t[1..], p, trig), trig)
  }

  /** Listing `a` before `b` applies `b` first, then `a`. */
  lemma {:induction false} ApplyAppend(a: Transform, b: Transform, p: Point, trig: Trig)
    ensures Apply(a + b, p, trig) == Apply(a, Apply(b, p, trig), trig)
    decreases |a|
  {
    if |a| == 0 {
      assert a + b == b;
    } else {
      assert (a + b)[0] == a[0];
      assert (a + b)[1..] == a[1..] + b;
      ApplyAppend(a[1..], b, p, trig);
    }
  }

  /** A rotation leaves its pivot where it is, whatever the angle. */
  lemma RotationFixesPivot(a: real, cx: real, cy: real, trig: Trig)
    ensures ApplyOp(Rotate(a, cx, cy), Point(cx, cy), trig) == Point(cx, cy)
  {
  }

  /** The point reflection through the centre: p goes to 2c - p. */
  function Reflect(c: Center, p: Point): Point {
    Point(2.0 * c.x as real - p.x, 2.0 * c.y as real - p.y)
  }

  lemma ReflectFixesCenter(c: Center)
    ensures Reflect(c, CenterPoint(c)) == CenterPoint(c)
  {
  }

  lemma ReflectInvolution(c: Center, p: Point)
    ensures Reflect(c, Reflect(c, p)) == p
  {
  }

  /** The mirroring prefix `translate(2mx,2my) scale(-1,-1)`. */
  function MirrorOps(c: Center): Transform {
    [Translate(2 * c.x, 2 * c.y), Scale(-1, -1)]
  }

  /** The mirroring prefix sends every point p to 2c - p. */
  lemma MirrorOpsReflect(c: Center, p: Point, trig: Trig)
    ensures Apply(MirrorOps(c), p, trig) == Reflect(c, p)
  {
    var t := MirrorOps(c);
    assert t[1..][1..] == [];
    assert Apply(t[1..], p, trig) == Point(-p.x, -p.y);
  }

  /**
   * `mirror_transform` of `main.py`, on strings: without mirroring the
   * base text is returned as is; with mirroring the translate/scale prefix,
   * one space and the base are joined and the whole text is stripped.
   */
  function MirrorTransform(base: string, mirror: bool, c: Center): (r: string)
    ensures !mirror ==> r == base
    ensures mirror && RStrip(base) == [] ==> forall fmt :: r == Render(MirrorOps(c), fmt)
    ensures mirror && RStrip(base) != [] ==> forall fmt :: r == Render(MirrorOps(c), fmt) + " " + RStrip(base)
    ensures mirror ==> r != [] && !IsSpace(r[0]) && !IsSpace(r[|r| - 1])
  {
    if !mirror then base
    else
      var prefix := MirrorPrefix(c);
      MirrorTransformStrips(prefix, base);
      MirrorOpsText(c);
      Strip(prefix + " " + base)
  }

  /** The text `mirror_transform` formats in front of the base transform (before the joining space). */
  function MirrorPrefix(c: Center): (r: string)
    ensures |r| > 0 && r[0] == 't' && r[|r| - 1] == ')'
  {
    "translate(" + IntText(2 * c.x) + "," + IntText(2 * c.y) + ")" + " " + "scale(-1,-1)"
  }

  /** The mirroring prefix renders as `translate(2mx,2my) scale(-1,-1)`, whatever the number format. */
  lemma MirrorOpsText(c: Center)
    ensures forall fmt :: Render(MirrorOps(c), fmt) == MirrorPrefix(c)
  {
    forall fmt ensures Render(MirrorOps(c), fmt) == MirrorPrefix(c) {
      var t := MirrorOps(c);
      var texts := OpTexts(t, fmt);
      assert texts[1..] == [texts[1]];
      assert Join(texts) == texts[0] + " " + texts[1];
      ScaleText(fmt);
    }
  }

  lemma ScaleText(fmt: NumberFormat)
    ensures RenderOp(Scale(-1, -1), fmt) == "scale(-1,-1)"
  {
    assert IntText(-1) == "-1";
  }

  /** Stripping `prefix + " " + base` keeps the prefix and drops only the base's trailing whitespace. */
  lemma MirrorTransformStrips(prefix: string, base: string)
    requires |prefix| > 0 && !IsSpace(prefix[0]) && !IsSpace(prefix[|prefix| - 1])
    ensures Strip(prefix + " " + base) == if RStrip(base) == [] then prefix else prefix + " " + RStrip(base)
  {
    var s := prefix + " " + base;
    RStripAppend(prefix + " ", base);
    var t := RStrip(s);
    if RStrip(base) == [] {
      RStripAppend(prefix, " ");
      assert RStrip(" ") == [];
      assert t == prefix;
    } else {
      assert t == prefix + " " + RStrip(base);
      assert t[0] == prefix[0];
    }
    LStripNonSpaceStart(t);
  }
}

=== FILE: wrappers.dfy ===
/** The optional-value datatype used for SVG attributes that may be absent. */
module Wrappers {

  datatype Option<+T> = None | Some(value: T)
}
